=== FILE: README.md ===
# Notes app core in Dafny

This project models the logic of a small React Native notes app. Users sign in against a `users` table of a hosted database. The app keeps the signed-in user in device storage under the key `user_data`. Users then list, search, create, edit and delete their notes in a `notes` table.

The model replaces three outside pieces with in-memory stand-ins:

- **The database.** It becomes two sequences of rows (`Backend.Db`).
- **The database client.** It becomes pure functions that compute the `{ data, error }` reply of each query the app builds, including the `.single()` rule: an error unless exactly one row matched.
- **Device storage.** It becomes a `map<string, string>`.

Anything outside the app's control is a parameter of the operations:

- whether a database call reaches the server (`Backend.Transport`);
- whether a storage call throws (`Auth.StorageIo`);
- the clock (`now`, a natural number).

Modules follow the source:

- `Auth`: the session provider.
- `Home`: the list, search and delete screen.
- `Editor`: the create and edit screens.
- `Types`: the row shapes.

They rest on these helper modules:

- `Backend`: the tables and client.
- `Ordering`: newest-first listing.
- `Seqs`: order-preserving filter.
- `Text`: `trim`, ASCII `toLowerCase`, `includes`.
- `Json`: `JSON.stringify`/`JSON.parse` of the stored user.
- `Wrappers`: `Option`.

The screen handlers are split at their `await`. `Auth.CompleteSignIn`, `Home.CompleteFetch` and `Editor.Settle` take any reply, so every branch of the source is covered, including branches the real client never takes. The composed operations (`Auth.SignIn`, `Home.FetchNotes`, `Editor.HandleSave`, …) feed them the replies the tables actually produce.

The app persists the session with `JSON.stringify` and restores it with `JSON.parse`. `Json` implements both for the `{"id":…,"email":"…"}` record. `Json.ParseSerialize` proves that they round-trip, so a sign-in survives a restart (`Auth.SignInSurvivesRestart`).

Behaviours of the code that the model keeps as written:

- `signIn` sets the user before writing storage. When the write throws, the user stays signed in and the storage error is returned.
- `signOut` clears the user before removing `user_data`. When the removal throws, its promise rejects, but the user is already gone.
- Through the real client, `signIn` never returns "User not found". `.single()` turns an empty match into an error, which becomes "Invalid login credentials" (`Auth.UserNotFoundUnreachable`).
- `signUp` ignores the error of its existence check. An unreachable check, or an email held by two rows (which makes `.single()` fail), lets the insert go ahead.
- Update and delete filter only by note id and never check the owner.
- Saving an untouched edit screen turns a null `content` into the empty string (`Editor.UntouchedEditKeepsNote`).
- The declared update shape of `notes` omits `updated_at`, but the edit screen writes it. `Types.NoteUpdate` follows the screen.

## Model

| member | source | states |
|---|---|---|
| Auth.Mount | src/auth/AuthProvider.tsx:26-27 | the provider starts with no user and loading |
| Auth.StoredUser | src/auth/AuthProvider.tsx:32-34 | a stored user exists only if `user_data` is present, is not the empty string and parses |
| Auth.LoadSession | src/auth/AuthProvider.tsx:30-41 | loading ends in every case and storage is untouched. The user changes only to the parsed stored value. A missing value, a storage error or a parse failure leaves it as it was |
| Auth.StartupRestores | src/auth/AuthProvider.tsx:26-43 | after mount and load the user is the stored one if the read succeeds, and null otherwise |
| Auth.Message | src/auth/AuthProvider.tsx:54-80 | the error messages are "Invalid login credentials", "User not found" and "User already exists". A database or storage error keeps its own message |
| Auth.CompleteSignIn | src/auth/AuthProvider.tsx:54-63 | a query error gives InvalidCredentials and no data gives UserNotFound, both with the state unchanged. A row gives user {id, email} without the password, stored under `user_data`. A failed write keeps the user set, leaves storage unchanged and returns the error |
| Auth.SignIn | src/auth/AuthProvider.tsx:45-64 | a success signs in the user of a `users` row with these credentials. Every failure except a storage failure leaves the state unchanged |
| Auth.SignInSurvivesRestart | src/auth/AuthProvider.tsx:57-59 | after a successful sign-in, a fresh provider over the resulting storage loads the same user |
| Auth.UnknownCredentialsRejected | src/auth/AuthProvider.tsx:47-54 | when no row has the email and password, a delivered sign-in gives InvalidCredentials and changes nothing |
| Auth.MatchingCredentialsSignIn | src/auth/AuthProvider.tsx:47-60 | when exactly one row matches, sign-in succeeds with that row's id and the given email, and storage then holds that user |
| Auth.AmbiguousCredentialsRejected | src/auth/AuthProvider.tsx:47-54 | when two rows match the email and password, `.single()` fails and sign-in answers InvalidCredentials with nothing changed |
| Auth.UserNotFoundUnreachable | src/auth/AuthProvider.tsx:52-55 | through the real client, sign-in never returns UserNotFound |
| Auth.SignUp | src/auth/AuthProvider.tsx:66-85 | the session is never touched. The answer is "User already exists" exactly when the check reached the database and found exactly one row with the email, and then nothing was inserted. In every other case, a dropped check or zero or several rows included, the insert runs: a dropped insert is returned as its own error unchanged, and a delivered one succeeds with the row inserted |
| Auth.ExistingEmailRejected | src/auth/AuthProvider.tsx:68-74 | when one row holds the email and the check is delivered, sign-up answers "User already exists" and changes nothing |
| Auth.DuplicatedEmailInserts | src/auth/AuthProvider.tsx:68-78 | when two rows already hold the email, `.single()` fails, the ignored check error lets the insert run, and a delivered insert succeeds and adds another row |
| Auth.NewEmailInserts | src/auth/AuthProvider.tsx:68-78 | when no row holds the email, the insert runs whatever happened to the check, and a delivered insert succeeds |
| Auth.SignUpTwice | src/auth/AuthProvider.tsx:68-78 | signing up a new email succeeds. Signing it up again answers "User already exists" and inserts nothing |
| Auth.SignOut | src/auth/AuthProvider.tsx:87-90 | the user is always cleared. A completed removal deletes exactly `user_data`. A failed removal rejects with its error and leaves storage unchanged |
| Auth.SignOutIdempotent | src/auth/AuthProvider.tsx:87-90 | two sign-outs end where one completed sign-out ends, even if the first removal failed |
| Auth.SignOutSurvivesRestart | src/auth/AuthProvider.tsx:87-90 | after a completed sign-out, a restart finds nobody signed in |
| Json.NatTextValue | src/auth/AuthProvider.tsx:59 | the decimal digits written for a natural number read back as that number |
| Json.IntRoundTrip | src/auth/AuthProvider.tsx:59 | the integer text written for the id parses back as the same integer |
| Json.ReadEscapedChar | src/auth/AuthProvider.tsx:59 | reading back one escaped character gives that character, followed by the rest of the input |
| Json.ReadEscaped | src/auth/AuthProvider.tsx:59 | an escaped email followed by a closing quote reads back as that email and the remaining text |
| Json.Serialize | src/auth/AuthProvider.tsx:59 | the stored text is an object text starting `{"id":` and ending `}`, so it is never the empty string the loader skips |
| Json.Parse | src/auth/AuthProvider.tsx:34 | a text parses to a user only if it is an object text starting `{"id":` and ending `}`. Anything else, including the empty string, is a parse failure |
| Json.ParseSerialize | src/auth/AuthProvider.tsx:34-59 | parsing the stored text of a user gives back that user |
| Json.SerializeInjective | src/auth/AuthProvider.tsx:59 | two users with the same stored text are the same user |
| Types.AsUser | src/types/index.ts:1-4 | the session user carries the row's id and email and nothing else |
| Backend.Single | src/auth/AuthProvider.tsx:52 | `.single()` gives data exactly when one row matched, and an error exactly when it gives no data |
| Backend.SelectByCredentials | src/auth/AuthProvider.tsx:47-52 | a delivered query returns a row exactly when one row has that email and password, and that row is in the table and matches. Zero or several matches, or a dropped call, give an error and no data |
| Backend.SelectIdByEmail | src/auth/AuthProvider.tsx:68-72 | a delivered check returns an id exactly when one row has that email, and the id belongs to such a row. Zero or several rows, or a dropped call, give an error and no data |
| Backend.FreshId | src/types/index.ts:25 | a server-assigned id differs from every id already in the table |
| Backend.InsertUser | src/auth/AuthProvider.tsx:76-78 | a delivered insert appends one row with the email, password and creation time, under a fresh id. A dropped insert changes nothing |
| Backend.SelectNotesOf | src/screens/HomeScreen.tsx:37-41 | the list holds exactly the user's notes, as a permutation, newest first |
| Backend.InsertNote | src/screens/CreateNoteScreen.tsx:26-30 | a delivered insert with an owner appends one note with the given title, content and owner, a fresh id and both timestamps `now`. Without an owner it is refused and nothing changes |
| Backend.Patched | src/screens/EditNoteScreen.tsx:25 | a patched note takes the new title, content and update time, and keeps its id, owner and creation time |
| Backend.UpdateNote | src/screens/EditNoteScreen.tsx:23-26 | every row with the id is patched whoever owns it. Every other row and the `users` table are unchanged |
| Backend.DeleteNote | src/screens/HomeScreen.tsx:82-85 | exactly the rows with the id disappear, whoever owns them. Every other row remains, in its original order |
| Backend.InsertKeepsIdsUnique | src/types/index.ts:25 | a note insert keeps note ids unique |
| Backend.UpdateKeepsIdsUnique | src/screens/EditNoteScreen.tsx:23-26 | an update keeps note ids unique |
| Backend.DeleteKeepsIdsUnique | src/screens/HomeScreen.tsx:82-85 | a delete keeps note ids unique |
| Ordering.InsertByRecency | src/screens/HomeScreen.tsx:41 | inserting into a newest-first list keeps it newest first and adds exactly that note |
| Ordering.SortByRecency | src/screens/HomeScreen.tsx:41 | the listing is a newest-first permutation of its input |
| Ordering.NewestHeadsList | src/screens/HomeScreen.tsx:41 | a note updated strictly later than all the others comes first |
| Seqs.Filter | src/screens/HomeScreen.tsx:64 | the result is no longer than the input and every kept element satisfies the test |
| Seqs.FilterEmbeds | src/screens/HomeScreen.tsx:64 | the filter result is what the input holds at ascending positions |
| Seqs.FilterIndicesExact | src/screens/HomeScreen.tsx:64 | those positions are exactly the ones whose element satisfies the test |
| Seqs.FilterMembers | src/screens/HomeScreen.tsx:64 | an element is in the filter result exactly when it is in the input and satisfies the test |
| Seqs.FilterNone | src/auth/AuthProvider.tsx:68-74 | when nothing satisfies the test the result is empty, so the existence check finds no row |
| Seqs.FilterSelects | src/screens/HomeScreen.tsx:64 | the filter result is the input at the ascending positions whose element satisfies the test, and at exactly those |
| Seqs.FilterIsSubsequence | src/screens/HomeScreen.tsx:64 | the filter result is an order-preserving subsequence of its input |
| Seqs.FilterSingle | src/auth/AuthProvider.tsx:47-52 | when one position matches, the filter returns exactly that element |
| Seqs.FilterTwo | src/auth/AuthProvider.tsx:47-52 | when two positions match, the filter returns at least two elements, so `.single()` fails |
| Seqs.FilterAll | src/screens/HomeScreen.tsx:62-66 | when every element satisfies the test, the filter returns its input unchanged |
| Seqs.FilterCongruent | src/screens/HomeScreen.tsx:62-64 | filters by tests that agree on the input give the same result |
| Text.TrimStart | src/screens/CreateNoteScreen.tsx:20 | the result is a suffix of the input. Everything dropped is whitespace, and the result does not start with whitespace |
| Text.TrimEnd | src/screens/CreateNoteScreen.tsx:20 | the result is a prefix of the input. Everything dropped is whitespace, and the result does not end with whitespace |
| Text.Trim | src/screens/CreateNoteScreen.tsx:20 | the trimmed title is no longer than the title, and neither starts nor ends with whitespace |
| Text.IsBlank | src/screens/EditNoteScreen.tsx:17 | a title fails the `!title.trim()` guard exactly when all of its characters are whitespace |
| Text.TrimKeepsCore | src/screens/EditNoteScreen.tsx:17 | a trimmed title is a contiguous piece of the title, and everything dropped before and after it is whitespace |
| Text.Lower | src/screens/HomeScreen.tsx:63-64 | lowering keeps the length, maps each character on its own, and leaves no upper-case ASCII letter |
| Text.Contains | src/screens/HomeScreen.tsx:64 | `includes` is true exactly when the query occurs at some position of the title |
| Text.ContainsEmpty | src/screens/HomeScreen.tsx:62-64 | every title contains the empty string |
| Home.Open | src/screens/HomeScreen.tsx:26-29 | the screen opens with no notes, loading, not refreshing, and an empty search |
| Home.CompleteFetch | src/screens/HomeScreen.tsx:43-52 | an error keeps the shown list. Success shows `data`, or nothing when `data` is null. Both flags end false |
| Home.FetchNotes | src/screens/HomeScreen.tsx:32-53 | without a user nothing changes. With one, both flags end false and an error keeps the list. A delivered fetch shows exactly the user's notes, newest first |
| Home.TitleMatches | src/screens/HomeScreen.tsx:64 | a note matches exactly when the lowered query occurs at some position of its lowered title |
| Home.EmptyQueryKeepsAll | src/screens/HomeScreen.tsx:62-66 | with an empty query the search test keeps every note, so the `if (searchQuery)` guard changes no result |
| Home.FilteredNotes | src/screens/HomeScreen.tsx:61-67 | an empty query returns the list unchanged. Otherwise a note is kept exactly when its lowered title contains the lowered query |
| Home.SearchSelects | src/screens/HomeScreen.tsx:62-64 | a non-empty search returns the matching positions of the list, in order |
| Home.SearchIgnoresQueryCase | src/screens/HomeScreen.tsx:63-64 | lowering the query first changes no search result |
| Home.DeleteNote | src/screens/HomeScreen.tsx:81-91 | a failed delete leaves screen and tables unchanged. A successful one removes exactly the rows with the id, keeps the other rows in order, and reloads the list |
| Home.DeletedNoteLeavesList | src/screens/HomeScreen.tsx:82-91 | after a delete and reload, the deleted note is gone from the list and the user's other notes remain |
| Editor.NewForm | src/screens/CreateNoteScreen.tsx:14-16 | the create form starts empty and idle |
| Editor.FormFor | src/screens/EditNoteScreen.tsx:12-14 | the edit form starts with the note's title, and with its content or "" when that is null |
| Editor.Settle | src/screens/CreateNoteScreen.tsx:31-38 | progress ends, and the screen goes back exactly when the write reported no error |
| Editor.BeginSave | src/screens/CreateNoteScreen.tsx:20-30 | a blank title sends nothing. Otherwise the form shows progress, and the row carries the untrimmed title and content and the user's id if there is one |
| Editor.HandleSave | src/screens/CreateNoteScreen.tsx:19-39 | a blank title changes nothing. Otherwise progress is off afterwards. Going back means one row was added. An error leaves the tables unchanged and stays on the screen |
| Editor.SaveInsertsTypedNote | src/screens/CreateNoteScreen.tsx:26-37 | a delivered save appends one note with the typed title and content, the user's id and time `now`, then goes back |
| Editor.SaveEndsIdle | src/screens/CreateNoteScreen.tsx:25-31 | a fresh form is idle after saving, and it showed progress only while an insert was in flight |
| Editor.BeginUpdate | src/screens/EditNoteScreen.tsx:17-25 | a blank title sends nothing. Otherwise the patch carries the typed title and content and the update time `now` |
| Editor.HandleUpdate | src/screens/EditNoteScreen.tsx:16-36 | a blank title changes nothing. Otherwise progress is off, and the screen goes back exactly on a delivered update, which reports no error. A dropped update leaves the tables unchanged and reports its error. Rows with other ids never change |
| Editor.UpdateRewritesAnyOwner | src/screens/EditNoteScreen.tsx:23-26 | a delivered update rewrites every row with the note's id, whoever owns it, and keeps its id, owner and creation time |
| Editor.UntouchedEditKeepsNote | src/screens/EditNoteScreen.tsx:12-26 | saving an untouched edit keeps the title. A null content becomes "" |
| Scenarios.NewNoteListedFirst | src/screens/HomeScreen.tsx:37-41 | a note saved later than every existing note heads the owner's reloaded list |
| Scenarios.EditedNoteListed | src/screens/EditNoteScreen.tsx:23-26 | after an edit, the reloaded list shows the note with its new title, updated later than it was created |

## Left out

- The database client library and its configuration (src/lib/supabase.ts). The model covers only what each query returns and does to the tables.
- Network failures. A failed call is modelled only as a dropped call that changes nothing. Timeouts, partial writes and retries are not modelled.
- Concurrency. Async interleavings, double taps, and the race between `signUp`'s existence check and its insert are not modelled. Each operation is one sequential step.
- Intermediate renders. The list's `if (!refreshing) setLoading(true)` is not observable once the fetch returns, so it is not modelled. The provider's loading spinner is not modelled either.
- The `onRefresh` pull-to-refresh wrapper. It only sets `refreshing` before calling `fetchNotes`.
- Toasts, the delete confirmation `Alert`, styling, icons and list rendering. All are presentation. `Home.DeleteNote` is the action after the user confirms.
- Navigation. The only rule in src/navigation/AppNavigator.tsx is Auth when there is no user and Home otherwise. src/navigation/InitialRouter.tsx and App.tsx are not part of this model. The editors report `back` instead of navigating.
- The login and sign-up screens and the form widgets. The screens' non-empty-field checks happen before `signIn`/`signUp` are called.
- Text.Lower: lowers only ASCII letters. JavaScript's full Unicode `toLowerCase` has no counterpart here, so searches with non-ASCII letters in other cases are not modelled.
- Json.ParseSerialize: `Json.Parse` accepts only the compact `{"id":…,"email":"…"}` text that `Json.Serialize` writes. Only sign-in writes `user_data`. Other JSON the source would parse, such as `null`, other key orders, whitespace or fractional ids, counts as a parse failure here.
- Lone surrogates. A `char` cannot hold one, so `\uD800`–`\uDFFF` escapes are rejected. `JSON.stringify` writes other characters unescaped, so the round trip is unaffected.
- Logging. `loadSession`'s catch only writes the error with `console.error`; it changes no state, so it is not modelled.
- Time. Timestamps are natural numbers and the clock is a parameter. `toLocaleDateString` is not modelled.
- Server-side behaviour. Ids come from the table's sequence, modelled as one more than the largest id in use. A note insert without `user_id` is refused, because the column is required (`Note.user_id` is a number). Notes with equal `updated_at` come back in table order. The database leaves their order unspecified, so `Backend.SelectNotesOf` promises only newest-first.
- Number width. Ids are unbounded integers, so JavaScript's 53-bit integer precision is not modelled.

=== FILE: auth.dfy ===
/** The session provider: who is signed in, whether the stored session is still being
    loaded, and the device storage that keeps the signed-in user across restarts
    under the key `user_data`. */
module Auth {
  import opened Wrappers
  import opened Types
  import Json
  import Backend
  import Seqs

  /** The one storage key the provider reads, writes and removes. */
  const UserDataKey: string := "user_data"

  /** The errors `signIn` and `signUp` hand back (they never throw). */
  datatype AuthError =
    | InvalidCredentials
    | UserNotFound
    | UserAlreadyExists
    | Rejected(message: string)     // an error from the database passed on unchanged
    | StorageFailed(message: string) // an error thrown by the device storage

  /** The `message` of the returned error. */
  function Message(e: AuthError): (m: string)
    ensures e.InvalidCredentials? ==> m == "Invalid login credentials"
    ensures e.UserNotFound? ==> m == "User not found"
    ensures e.UserAlreadyExists? ==> m == "User already exists"
    ensures e.Rejected? || e.StorageFailed? ==> m == e.message
  {
    match e
    case InvalidCredentials => "Invalid login credentials"
    case UserNotFound => "User not found"
    case UserAlreadyExists => "User already exists"
    case Rejected(msg) => msg
    case StorageFailed(msg) => msg
  }

  /** How one call into the device storage ends. */
  datatype StorageIo = Completes | Throws(message: string)

  /** The provider's state and the device storage it owns. */
  datatype Session = Session(user: Option<User>, loading: bool, storage: map<string, string>)

  /** The outcome of `signIn`: the state after it and the `error` it returns. */
  datatype SignInReply = SignInReply(session: Session, error: Option<AuthError>)

  /** The outcome of `signUp`, which also writes to the `users` table. */
  datatype SignUpReply = SignUpReply(session: Session, db: Backend.Db, error: Option<AuthError>)

  /** The outcome of `signOut`: the state after it, and the storage error its promise
      rejects with, if any. */
  datatype SignOutReply = SignOutReply(session: Session, rejection: Option<string>)

  /** The provider as it mounts: nobody signed in, still loading. */
  function Mount(storage: map<string, string>): (s: Session)
    ensures s.user.None? && s.loading && s.storage == storage
  {
    Session(None, true, storage)
  }

  /** The user a stored session holds: the key is present, its value is not the empty
      string (which the loader treats as false) and it parses. */
  function StoredUser(storage: map<string, string>): (u: Option<User>)
    ensures u.Some? ==> UserDataKey in storage && Json.Parse(storage[UserDataKey]) == u
  {
    if UserDataKey in storage && storage[UserDataKey] != "" then Json.Parse(storage[UserDataKey])
    else None
  }

  /** `loadSession`: reads `user_data`; a stored value that parses becomes the user, and
      a missing value, a storage error or a parse error leaves the user as it was.
      Loading ends in every case. */
  function LoadSession(s: Session, read: StorageIo): (r: Session)
    ensures !r.loading && r.storage == s.storage
    ensures r.user != s.user ==> read.Completes? && r.user == StoredUser(s.storage) && r.user.Some?
    ensures read.Completes? && StoredUser(s.storage).Some? ==> r.user == StoredUser(s.storage)
  {
    var done := s.(loading := false);
    match read
    case Throws(_) => done
    case Completes =>
      if UserDataKey !in s.storage then done
      else
        var stored := s.storage[UserDataKey];
        if stored == "" then done
        else
          match Json.Parse(stored)
          case Some(u) => done.(user := Some(u))
          case None => done
  }

  /** After the provider mounts and loads, it is no longer loading, and the user is the
      stored one when the read succeeds and there is one, and nobody otherwise. */
  lemma StartupRestores(storage: map<string, string>, read: StorageIo)
    ensures var s := LoadSession(Mount(storage), read);
      && !s.loading
      && s.storage == storage
      && s.user == (if read.Completes? then StoredUser(storage) else None)
  {
  }

  /** `signIn` from the point its query has answered with `found`: a query error becomes
      "Invalid login credentials", an empty answer "User not found", and both leave the
      state alone. A row becomes the user, without its password, and is then written
      to storage; when that write throws, the user is already set and the storage
      error is returned. */
  function CompleteSignIn(s: Session, found: Backend.Response<UserRow>, write: StorageIo): (r: SignInReply)
    ensures found.error.Some? ==> r == SignInReply(s, Some(InvalidCredentials))
    ensures found.error.None? && found.data.None? ==> r == SignInReply(s, Some(UserNotFound))
    ensures found.error.None? && found.data.Some? ==>
      && r.session.user == Some(User(found.data.value.id, found.data.value.email))
      && r.session.loading == s.loading
      && (write.Completes? ==>
            r.error.None? && r.session.storage == s.storage[UserDataKey := Json.Serialize(r.session.user.value)])
      && (write.Throws? ==>
            r.error == Some(StorageFailed(write.message)) && r.session.storage == s.storage)
  {
    if found.error.Some? then SignInReply(s, Some(InvalidCredentials))
    else if found.data.None? then SignInReply(s, Some(UserNotFound))
    else
      var u := AsUser(found.data.value);
      var signedIn := s.(user := Some(u));
      match write
      case Throws(m) => SignInReply(signedIn, Some(StorageFailed(m)))
      case Completes => SignInReply(signedIn.(storage := s.storage[UserDataKey := Json.Serialize(u)]), None)
  }

  /** `signIn(email, pass)`: looks up the single `users` row with that email and
      password, then continues as `CompleteSignIn`. */
  function SignIn(s: Session, db: Backend.Db, email: string, pass: string, net: Backend.Transport, write: StorageIo): (r: SignInReply)
    ensures r.error.None? ==> exists row :: row in db.users && Backend.WithCredentials(email, pass)(row) && r.session.user == Some(AsUser(row))
    ensures r.error.Some? && !r.error.value.StorageFailed? ==> r.session == s
  {
    CompleteSignIn(s, Backend.SelectByCredentials(db, email, pass, net), write)
  }

  /** A successful sign-in survives a restart: a fresh provider over the storage it
      left behind loads the same user. */
  lemma SignInSurvivesRestart(s: Session, found: Backend.Response<UserRow>)
    requires found.error.None? && found.data.Some?
    ensures var r := CompleteSignIn(s, found, Completes);
      && r.error.None?
      && LoadSession(Mount(r.session.storage), Completes).user == r.session.user
  {
    var u := AsUser(found.data.value);
    Json.ParseSerialize(u);
  }

  /** With credentials no row matches, a sign-in that reaches the database fails with
      "Invalid login credentials" (`.single()` reports the empty match as an error)
      and changes nothing. */
  lemma UnknownCredentialsRejected(s: Session, db: Backend.Db, email: string, pass: string, write: StorageIo)
    requires forall row :: row in db.users ==> !Backend.WithCredentials(email, pass)(row)
    ensures SignIn(s, db, email, pass, Backend.Delivered, write) == SignInReply(s, Some(InvalidCredentials))
  {
  }

  /** With exactly one row matching, a sign-in that reaches the database and whose
      storage write completes signs in that row's user under the given email. */
  lemma MatchingCredentialsSignIn(s: Session, db: Backend.Db, email: string, pass: string, k: nat)
    requires k < |db.users| && Backend.WithCredentials(email, pass)(db.users[k])
    requires forall i :: 0 <= i < |db.users| && Backend.WithCredentials(email, pass)(db.users[i]) ==> i == k
    ensures var r := SignIn(s, db, email, pass, Backend.Delivered, Completes);
      && r.error.None?
      && r.session.user == Some(User(db.users[k].id, email))
      && StoredUser(r.session.storage) == r.session.user
  {
    Seqs.FilterSingle(db.users, Backend.WithCredentials(email, pass), k);
    Json.ParseSerialize(User(db.users[k].id, email));
  }

  /** Two rows matching the credentials make `.single()` fail, so the sign-in is
      refused with "Invalid login credentials" and changes nothing. */
  lemma AmbiguousCredentialsRejected(s: Session, db: Backend.Db, email: string, pass: string, write: StorageIo, i: nat, j: nat)
    requires i < j < |db.users|
    requires Backend.WithCredentials(email, pass)(db.users[i]) && Backend.WithCredentials(email, pass)(db.users[j])
    ensures SignIn(s, db, email, pass, Backend.Delivered, write) == SignInReply(s, Some(InvalidCredentials))
  {
    Seqs.FilterTwo(db.users, Backend.WithCredentials(email, pass), i, j);
  }

  /** Through the real client, "User not found" is never returned: `.single()` reports
      every answer without data as an error, so the `!data` branch is not reached. */
  lemma UserNotFoundUnreachable(s: Session, db: Backend.Db, email: string, pass: string, net: Backend.Transport, write: StorageIo)
    ensures SignIn(s, db, email, pass, net, write).error != Some(UserNotFound)
  {
  }

  /** `signUp(email, pass)`: a `users` row already holding the email stops it with
      "User already exists" before any insert. The existence query's own error is
      ignored, so an unreachable or ambiguous check lets the insert go ahead. An
      insert error is returned unchanged. The session is never touched. */
  function SignUp(s: Session, db: Backend.Db, email: string, pass: string, check: Backend.Transport, insert: Backend.Transport, now: nat): (r: SignUpReply)
    ensures r.session == s
    ensures r.error == Some(UserAlreadyExists) <==> check.Delivered? && |Seqs.Filter(db.users, Backend.WithEmail(email))| == 1
    ensures r.error == Some(UserAlreadyExists) ==> r.db == db
    ensures r.error != Some(UserAlreadyExists) ==> r.db == Backend.InsertUser(db, UserInsert(email, Some(pass)), insert, now).db
    ensures r.error != Some(UserAlreadyExists) ==> r.error == (if insert.Dropped? then Some(Rejected(insert.message)) else None)
    ensures r.error.None? ==> insert.Delivered? && r.db == Backend.InsertUser(db, UserInsert(email, Some(pass)), insert, now).db
    ensures check.Dropped? ==> r.db == Backend.InsertUser(db, UserInsert(email, Some(pass)), insert, now).db
    ensures r.error.Some? && r.error.value.Rejected? ==> insert.Dropped? && r.error.value.message == insert.message
  {
    var existing := Backend.SelectIdByEmail(db, email, check);
    if existing.data.Some? then SignUpReply(s, db, Some(UserAlreadyExists))
    else
      var w := Backend.InsertUser(db, UserInsert(email, Some(pass)), insert, now);
      match w.error
      case Some(m) => SignUpReply(s, w.db, Some(Rejected(m)))
      case None => SignUpReply(s, w.db, None)
  }

  /** Signing up twice with a new email: the first call adds the account, the second
      finds it and answers "User already exists" without inserting again. */
  lemma SignUpTwice(s: Session, db: Backend.Db, email: string, pass1: string, pass2: string, now1: nat, now2: nat)
    requires forall row :: row in db.users ==> row.email != email
    ensures var first := SignUp(s, db, email, pass1, Backend.Delivered, Backend.Delivered, now1);
      && first.error.None?
      && var second := SignUp(s, first.db, email, pass2, Backend.Delivered, Backend.Delivered, now2);
      && second.error == Some(UserAlreadyExists)
      && second.db == first.db
  {
    var first := SignUp(s, db, email, pass1, Backend.Delivered, Backend.Delivered, now1);
    Seqs.FilterNone(db.users, Backend.WithEmail(email));
    var k := |db.users|;
    var users := first.db.users;
    assert |users| == k + 1 && users[..k] == db.users;
    assert forall i :: 0 <= i < k ==> users[i] == db.users[i] && db.users[i] in db.users;
    Seqs.FilterSingle(users, Backend.WithEmail(email), k);
  }

  /** One `users` row holding the email, and a check that reaches the database: the
      answer is "User already exists" and nothing changes. */
  lemma ExistingEmailRejected(s: Session, db: Backend.Db, email: string, pass: string, insert: Backend.Transport, now: nat, k: nat)
    requires k < |db.users| && db.users[k].email == email
    requires forall i :: 0 <= i < |db.users| && db.users[i].email == email ==> i == k
    ensures SignUp(s, db, email, pass, Backend.Delivered, insert, now) == SignUpReply(s, db, Some(UserAlreadyExists))
  {
    Seqs.FilterSingle(db.users, Backend.WithEmail(email), k);
  }

  /** Two `users` rows holding the email make `.single()` fail, and the ignored check
      error lets the insert go ahead: a third account with that email is added. */
  lemma DuplicatedEmailInserts(s: Session, db: Backend.Db, email: string, pass: string, insert: Backend.Transport, now: nat, i: nat, j: nat)
    requires i < j < |db.users| && db.users[i].email == email && db.users[j].email == email
    ensures var r := SignUp(s, db, email, pass, Backend.Delivered, insert, now);
      && r.error != Some(UserAlreadyExists)
      && r.db == Backend.InsertUser(db, UserInsert(email, Some(pass)), insert, now).db
      && (insert.Delivered? ==> r.error.None? && |r.db.users| == |db.users| + 1)
  {
    Seqs.FilterTwo(db.users, Backend.WithEmail(email), i, j);
  }

  /** With no `users` row holding the email, the insert runs whatever the check's
      transport, and a delivered insert signs the account up. */
  lemma NewEmailInserts(s: Session, db: Backend.Db, email: string, pass: string, check: Backend.Transport, insert: Backend.Transport, now: nat)
    requires forall row :: row in db.users ==> row.email != email
    ensures var r := SignUp(s, db, email, pass, check, insert, now);
      && r.db == Backend.InsertUser(db, UserInsert(email, Some(pass)), insert, now).db
      && (insert.Delivered? ==> r.error.None?)
  {
    Seqs.FilterNone(db.users, Backend.WithEmail(email));
  }

  /** `signOut`: clears the user first, then removes `user_data`; when the removal
      throws, the user is already gone and the promise rejects with the error. */
  function SignOut(s: Session, remove: StorageIo): (r: SignOutReply)
    ensures r.session.user.None? && r.session.loading == s.loading
    ensures remove.Completes? ==> r.rejection.None? && UserDataKey !in r.session.storage
    ensures remove.Completes? ==> forall k :: k in r.session.storage ==> k in s.storage
    ensures remove.Completes? ==> forall k :: k in s.storage && k != UserDataKey ==> k in r.session.storage && r.session.storage[k] == s.storage[k]
    ensures remove.Throws? ==> r.rejection == Some(remove.message) && r.session.storage == s.storage
  {
    var cleared := s.(user := None);
    match remove
    case Throws(m) => SignOutReply(cleared, Some(m))
    case Completes => SignOutReply(cleared.(storage := s.storage - {UserDataKey}), None)
  }

  /** Signing out twice ends where signing out once does, whether or not the first
      removal failed. */
  lemma SignOutIdempotent(s: Session, first: StorageIo)
    ensures SignOut(SignOut(s, first).session, Completes) == SignOut(s, Completes)
  {
  }

  /** After a completed sign-out a restart finds nobody signed in. */
  lemma SignOutSurvivesRestart(s: Session, read: StorageIo)
    ensures LoadSession(Mount(SignOut(s, Completes).session.storage), read).user.None?
  {
  }
}

=== FILE: backend.dfy ===
/** The hosted database as the app sees it through its client: two tables held in
    memory, read and written by the handful of queries the app builds. Every call
    either reaches the database or fails in transit; a failed call changes nothing
    and reports its message in the `error` half of the `{ data, error }` reply. */
module Backend {
  import opened Wrappers
  import opened Types
  import Seqs
  import Ordering

  /** Whether a call reaches the database, or fails on the way with a message. */
  datatype Transport = Delivered | Dropped(message: string)

  /** The `{ data, error }` reply of a read. */
  datatype Response<T> = Response(data: Option<T>, error: Option<string>)

  /** The reply of a write, with the tables as they are after it. */
  datatype Written = Written(db: Db, error: Option<string>)

  datatype Db = Db(users: seq<UserRow>, notes: seq<Note>)

  /** The error `.single()` reports when the query did not match exactly one row. */
  const SingleRowError: string := "JSON object requested, multiple (or no) rows returned"

  /** The error a note insert without an owner draws: `user_id` is a required column. */
  const MissingOwnerError: string := "null value in column \"user_id\" violates not-null constraint"

  function Failure<T>(message: string): (r: Response<T>)
    ensures r.data.None? && r.error == Some(message)
  {
    Response(None, Some(message))
  }

  /** `.single()`: the one matching row, or an error (and no data) when zero rows or
      more than one row matched. */
  function Single<T>(rows: seq<T>): (r: Response<T>)
    ensures r.data.Some? <==> |rows| == 1
    ensures r.data.Some? ==> r.data.value == rows[0]
    ensures r.error.Some? <==> r.data.None?
  {
    if |rows| == 1 then Response(Some(rows[0]), None) else Failure(SingleRowError)
  }

  // ---------------------------------------------------------------- users

  /** The filter `.eq('email', email)`. */
  function WithEmail(email: string): UserRow -> bool
  {
    (row: UserRow) => row.email == email
  }

  /** The filter `.eq('email', email).eq('password', pass)`: a row with no password
      matches no password. */
  function WithCredentials(email: string, pass: string): UserRow -> bool
  {
    (row: UserRow) => row.email == email && row.password == Some(pass)
  }

  /** `from('users').select('*').eq('email', email).eq('password', pass).single()` */
  function SelectByCredentials(db: Db, email: string, pass: string, net: Transport): (r: Response<UserRow>)
    ensures net.Dropped? ==> r == Failure(net.message)
    ensures net.Delivered? ==> (r.data.Some? <==> |Seqs.Filter(db.users, WithCredentials(email, pass))| == 1)
    ensures r.data.Some? ==> r.data.value in db.users && WithCredentials(email, pass)(r.data.value)
    ensures r.error.Some? <==> r.data.None?
  {
    match net
    case Dropped(m) => Failure(m)
    case Delivered =>
      Seqs.FilterMembers(db.users, WithCredentials(email, pass));
      Single(Seqs.Filter(db.users, WithCredentials(email, pass)))
  }

  /** `from('users').select('id').eq('email', email).single()` */
  function SelectIdByEmail(db: Db, email: string, net: Transport): (r: Response<int>)
    ensures net.Dropped? ==> r == Failure(net.message)
    ensures net.Delivered? ==> (r.data.Some? <==> |Seqs.Filter(db.users, WithEmail(email))| == 1)
    ensures r.data.Some? ==> exists row :: row in db.users && WithEmail(email)(row) && row.id == r.data.value
    ensures r.error.Some? <==> r.data.None?
  {
    match net
    case Dropped(m) => Failure(m)
    case Delivered =>
      Seqs.FilterMembers(db.users, WithEmail(email));
      var found := Single(Seqs.Filter(db.users, WithEmail(email)));
      match found.data
      case Some(row) => Response(Some(row.id), None)
      case None => Response(None, found.error)
  }

  /** The largest key of `rows`, or zero when there is none. */
  function MaxKey<T>(rows: seq<T>, key: T -> int): (m: int)
    ensures m >= 0
    ensures forall i :: 0 <= i < |rows| ==> key(rows[i]) <= m
  {
    if |rows| == 0 then 0
    else
      var m := MaxKey(rows[1..], key);
      assert forall i :: 1 <= i < |rows| ==> rows[i] == rows[1..][i - 1];
      if key(rows[0]) > m then key(rows[0]) else m
  }

  /** The id the server's sequence hands out next: greater than every id in use. */
  function FreshId<T>(rows: seq<T>, key: T -> int): (id: int)
    ensures id > 0
    ensures forall r :: r in rows ==> key(r) != id
  {
    MaxKey(rows, key) + 1
  }

  /** `from('users').insert(row)`: appends a row with a fresh id created at `now`. */
  function InsertUser(db: Db, row: UserInsert, net: Transport, now: nat): (w: Written)
    ensures net.Dropped? ==> w == Written(db, Some(net.message))
    ensures net.Delivered? ==>
      && w.error.None?
      && w.db.notes == db.notes
      && |w.db.users| == |db.users| + 1
      && w.db.users[..|db.users|] == db.users
      && var added := w.db.users[|db.users|];
         added.email == row.email && added.password == row.password && added.createdAt == now
         && forall r :: r in db.users ==> r.id != added.id
  {
    match net
    case Dropped(m) => Written(db, Some(m))
    case Delivered =>
      var id := FreshId(db.users, (r: UserRow) => r.id);
      Written(db.(users := db.users + [UserRow(id, row.email, row.password, now)]), None)
  }

  // ---------------------------------------------------------------- notes

  /** The filter `.eq('user_id', userId)`. */
  function OwnedBy(userId: int): Note -> bool
  {
    (n: Note) => n.userId == userId
  }

  /** What survives `.delete().eq('id', id)`. */
  function IdIsNot(id: int): Note -> bool
  {
    (n: Note) => n.id != id
  }

  /** `from('notes').select('*').eq('user_id', userId).order('updated_at', { ascending: false })` */
  function SelectNotesOf(db: Db, userId: int, net: Transport): (r: Response<seq<Note>>)
    ensures net.Dropped? ==> r == Failure(net.message)
    ensures net.Delivered? ==> r.error.None? && r.data.Some?
    ensures r.data.Some? ==>
      && Ordering.NewestFirst(r.data.value)
      && multiset(r.data.value) == multiset(Seqs.Filter(db.notes, OwnedBy(userId)))
      && forall n :: n in r.data.value <==> n in db.notes && OwnedBy(userId)(n)
  {
    match net
    case Dropped(m) => Failure(m)
    case Delivered =>
      var mine := Seqs.Filter(db.notes, OwnedBy(userId));
      Seqs.FilterMembers(db.notes, OwnedBy(userId));
      var listed := Ordering.SortByRecency(mine);
      assert forall n :: n in listed <==> n in multiset(mine);
      Response(Some(listed), None)
  }

  /** `from('notes').insert(row)`: the server assigns a fresh id and stamps both
      timestamps with `now`; a row without an owner is refused. */
  function InsertNote(db: Db, row: NoteInsert, net: Transport, now: nat): (w: Written)
    ensures net.Dropped? ==> w == Written(db, Some(net.message))
    ensures net.Delivered? && row.userId.None? ==> w == Written(db, Some(MissingOwnerError))
    ensures net.Delivered? && row.userId.Some? ==>
      && w.error.None?
      && w.db.users == db.users
      && |w.db.notes| == |db.notes| + 1
      && w.db.notes[..|db.notes|] == db.notes
      && var added := w.db.notes[|db.notes|];
         && added.title == row.title && added.content == row.content
         && added.userId == row.userId.value
         && added.createdAt == now && added.updatedAt == now
         && forall n :: n in db.notes ==> n.id != added.id
  {
    match net
    case Dropped(m) => Written(db, Some(m))
    case Delivered =>
      match row.userId
      case None => Written(db, Some(MissingOwnerError))
      case Some(owner) =>
        var id := FreshId(db.notes, (n: Note) => n.id);
        Written(db.(notes := db.notes + [Note(id, row.title, row.content, owner, now, now)]), None)
  }

  /** The row `n` after the update `patch` was applied to it. */
  function Patched(n: Note, patch: NoteUpdate): (m: Note)
    ensures m.id == n.id && m.userId == n.userId && m.createdAt == n.createdAt
    ensures m.title == patch.title && m.content == patch.content && m.updatedAt == patch.updatedAt
  {
    n.(title := patch.title, content := patch.content, updatedAt := patch.updatedAt)
  }

  /** `from('notes').update(patch).eq('id', id)`: every row with that id is patched,
      whoever owns it; every other row is left as it was. */
  function UpdateNote(db: Db, id: int, patch: NoteUpdate, net: Transport): (w: Written)
    ensures net.Dropped? ==> w == Written(db, Some(net.message))
    ensures net.Delivered? ==>
      && w.error.None?
      && w.db.users == db.users
      && |w.db.notes| == |db.notes|
      && forall i :: 0 <= i < |db.notes| ==>
           w.db.notes[i] == if db.notes[i].id == id then Patched(db.notes[i], patch) else db.notes[i]
  {
    match net
    case Dropped(m) => Written(db, Some(m))
    case Delivered =>
      var notes := seq(|db.notes|, i requires 0 <= i < |db.notes| =>
        if db.notes[i].id == id then Patched(db.notes[i], patch) else db.notes[i]);
      Written(db.(notes := notes), None)
  }

  /** `from('notes').delete().eq('id', id)`: removes every row with that id, whoever
      owns it, and keeps the others in order. */
  function DeleteNote(db: Db, id: int, net: Transport): (w: Written)
    ensures net.Dropped? ==> w == Written(db, Some(net.message))
    ensures net.Delivered? ==>
      && w.error.None?
      && w.db.users == db.users
      && (forall n :: n in w.db.notes ==> n in db.notes && n.id != id)
      && (forall n :: n in db.notes && n.id != id ==> n in w.db.notes)
      && Seqs.IsSubsequence(w.db.notes, db.notes)
  {
    match net
    case Dropped(m) => Written(db, Some(m))
    case Delivered =>
      Seqs.FilterMembers(db.notes, IdIsNot(id));
      Seqs.FilterIsSubsequence(db.notes, IdIsNot(id));
      Written(db.(notes := Seqs.Filter(db.notes, IdIsNot(id))), None)
  }

  /** No two notes share an id. */
  predicate UniqueIds(notes: seq<Note>)
  {
    forall i, j :: 0 <= i < j < |notes| ==> notes[i].id != notes[j].id
  }

  /** A note insert keeps note ids unique: the new row's id is fresh. */
  lemma InsertKeepsIdsUnique(db: Db, row: NoteInsert, net: Transport, now: nat)
    requires UniqueIds(db.notes)
    ensures UniqueIds(InsertNote(db, row, net, now).db.notes)
  {
    var inserted := InsertNote(db, row, net, now).db.notes;
    if inserted != db.notes {
      var k := |db.notes|;
      assert inserted[..k] == db.notes;
      forall i, j | 0 <= i < j < |inserted|
        ensures inserted[i].id != inserted[j].id
      {
        assert inserted[i] == db.notes[i];
        if j < k {
          assert inserted[j] == db.notes[j];
        } else {
          assert db.notes[i] in db.notes;
        }
      }
    }
  }

  /** An update keeps note ids unique: it never changes an id. */
  lemma UpdateKeepsIdsUnique(db: Db, id: int, patch: NoteUpdate, net: Transport)
    requires UniqueIds(db.notes)
    ensures UniqueIds(UpdateNote(db, id, patch, net).db.notes)
  {
    var updated := UpdateNote(db, id, patch, net).db.notes;
    assert forall i :: 0 <= i < |updated| ==> updated[i].id == db.notes[i].id;
  }

  /** A delete keeps note ids unique: what remains is a subsequence of the table. */
  lemma DeleteKeepsIdsUnique(db: Db, id: int, net: Transport)
    requires UniqueIds(db.notes)
    ensures UniqueIds(DeleteNote(db, id, net).db.notes)
  {
  }
}

=== FILE: editor.dfy ===
/** The two note editors: the create screen, which inserts a new note, and the edit
    screen, which rewrites an existing one. Both refuse a blank title, show progress
    only while their write is in flight, and go back only when the write succeeds. */
module Editor {
  import opened Wrappers
  import opened Types
  import Backend
  import Text

  /** The form: the title and content fields and the button's progress flag. */
  datatype Form = Form(title: string, content: string, loading: bool)

  /** The outcome of pressing the button: the form and the tables after it, whether
      the screen navigates back, and the error reported, if any. */
  datatype SaveStep = SaveStep(form: Form, db: Backend.Db, back: bool, error: Option<string>)

  /** A write that has been sent: the form while it waits and the row it carries. */
  datatype Pending<R> = Pending(busy: Form, row: R)

  /** The create screen's empty form. */
  function NewForm(): (f: Form)
    ensures f.title == "" && f.content == "" && !f.loading
  {
    Form("", "", false)
  }

  /** The edit screen's form, filled from the note: its title, and its content or the
      empty string when the content is null. */
  function FormFor(note: Note): (f: Form)
    ensures f.title == note.title && !f.loading
    ensures note.content.Some? ==> f.content == note.content.value
    ensures note.content.None? ==> f.content == ""
  {
    Form(note.title, note.content.GetOr(""), false)
  }

  /** Once the write has answered: progress ends, and the screen goes back exactly when
      there is no error. */
  function Settle(busy: Form, db: Backend.Db, error: Option<string>): (r: SaveStep)
    ensures !r.form.loading && r.form.title == busy.title && r.form.content == busy.content
    ensures r.back <==> error.None?
    ensures r.db == db && r.error == error
  {
    SaveStep(busy.(loading := false), db, error.None?, error)
  }

  // ---------------------------------------------------------------- create

  /** The first half of `handleSave`: a blank title stops it; otherwise the form shows
      progress and the row to insert carries the title and content exactly as typed
      and the signed-in user's id, if there is one. */
  function BeginSave(f: Form, user: Option<User>): (p: Option<Pending<NoteInsert>>)
    ensures p.None? <==> Text.IsBlank(f.title)
    ensures p.Some? ==>
      && p.value.busy == f.(loading := true)
      && p.value.row.title == f.title
      && p.value.row.content == Some(f.content)
      && (user.Some? ==> p.value.row.userId == Some(user.value.id))
      && (user.None? ==> p.value.row.userId.None?)
  {
    if Text.IsBlank(f.title) then None
    else
      var owner := match user case Some(u) => Some(u.id) case None => None;
      Some(Pending(f.(loading := true), NoteInsert(f.title, Some(f.content), owner)))
  }

  /** `handleSave`: a blank title inserts nothing and leaves the screen as it is;
      otherwise the row is inserted and the screen settles on the insert's answer. */
  function HandleSave(f: Form, user: Option<User>, db: Backend.Db, net: Backend.Transport, now: nat): (r: SaveStep)
    ensures Text.IsBlank(f.title) ==> r == SaveStep(f, db, false, None)
    ensures !Text.IsBlank(f.title) ==> !r.form.loading
    ensures r.back ==> r.error.None? && |r.db.notes| == |db.notes| + 1
    ensures r.error.Some? ==> r.db == db && !r.back
  {
    match BeginSave(f, user)
    case None => SaveStep(f, db, false, None)
    case Some(p) =>
      var w := Backend.InsertNote(db, p.row, net, now);
      Settle(p.busy, w.db, w.error)
  }

  /** A successful save of a fresh note by a signed-in user adds exactly one row,
      owned by that user, holding the title and content as typed and stamped `now`,
      and the screen goes back. */
  lemma SaveInsertsTypedNote(f: Form, u: User, db: Backend.Db, now: nat)
    requires !Text.IsBlank(f.title)
    ensures var r := HandleSave(f, Some(u), db, Backend.Delivered, now);
      && r.back && r.error.None? && !r.form.loading
      && r.db.notes[..|db.notes|] == db.notes
      && r.db.notes[|db.notes|].title == f.title
      && r.db.notes[|db.notes|].content == Some(f.content)
      && r.db.notes[|db.notes|].userId == u.id
      && r.db.notes[|db.notes|].updatedAt == now
  {
  }

  /** Whatever the title, a form opened fresh is not loading once `handleSave` returns,
      and progress was shown only when an insert was sent. */
  lemma SaveEndsIdle(user: Option<User>, title: string, content: string, db: Backend.Db, net: Backend.Transport, now: nat)
    ensures var f := NewForm().(title := title, content := content);
      && !HandleSave(f, user, db, net, now).form.loading
      && (BeginSave(f, user).Some? ==> BeginSave(f, user).value.busy.loading)
  {
  }

  // ---------------------------------------------------------------- edit

  /** The first half of `handleUpdate`: a blank title stops it; otherwise the form shows
      progress and the patch carries the title and content as typed and `now` as the
      new update time. */
  function BeginUpdate(f: Form, now: nat): (p: Option<Pending<NoteUpdate>>)
    ensures p.None? <==> Text.IsBlank(f.title)
    ensures p.Some? ==>
      && p.value.busy == f.(loading := true)
      && p.value.row == NoteUpdate(f.title, Some(f.content), now)
  {
    if Text.IsBlank(f.title) then None
    else Some(Pending(f.(loading := true), NoteUpdate(f.title, Some(f.content), now)))
  }

  /** `handleUpdate`: a blank title updates nothing; otherwise the row with the note's
      id is patched, with no check of who owns it, and the screen settles on the
      update's answer. */
  function HandleUpdate(f: Form, note: Note, db: Backend.Db, net: Backend.Transport, now: nat): (r: SaveStep)
    ensures Text.IsBlank(f.title) ==> r == SaveStep(f, db, false, None)
    ensures !Text.IsBlank(f.title) ==> !r.form.loading && (r.back <==> net.Delivered?)
    ensures !Text.IsBlank(f.title) && net.Dropped? ==> r.db == db && r.error == Some(net.message)
    ensures !Text.IsBlank(f.title) && net.Delivered? ==> r.error.None?
    ensures r.db.users == db.users && |r.db.notes| == |db.notes|
    ensures forall i :: 0 <= i < |db.notes| && db.notes[i].id != note.id ==> r.db.notes[i] == db.notes[i]
  {
    match BeginUpdate(f, now)
    case None => SaveStep(f, db, false, None)
    case Some(p) =>
      var w := Backend.UpdateNote(db, note.id, p.row, net);
      Settle(p.busy, w.db, w.error)
  }

  /** A delivered update rewrites every row with the note's id, whoever owns it, to
      the typed title and content and the time `now`; its id, owner and creation time
      stay. */
  lemma UpdateRewritesAnyOwner(f: Form, note: Note, db: Backend.Db, now: nat, i: nat)
    requires !Text.IsBlank(f.title)
    requires i < |db.notes| && db.notes[i].id == note.id
    ensures var m := HandleUpdate(f, note, db, Backend.Delivered, now).db.notes[i];
      && m.title == f.title && m.content == Some(f.content) && m.updatedAt == now
      && m.id == db.notes[i].id && m.userId == db.notes[i].userId && m.createdAt == db.notes[i].createdAt
  {
  }

  /** Saving an edit screen without touching it rewrites the note with its own title,
      but a null content comes back as the empty string. */
  lemma UntouchedEditKeepsNote(note: Note, db: Backend.Db, now: nat, i: nat)
    requires !Text.IsBlank(note.title)
    requires i < |db.notes| && db.notes[i] == note
    ensures var m := HandleUpdate(FormFor(note), note, db, Backend.Delivered, now).db.notes[i];
      && m.title == note.title
      && m.content == Some(note.content.GetOr(""))
      && m.updatedAt == now
  {
  }
}

=== FILE: home.dfy ===
/** The home screen: the signed-in user's notes, newest first, narrowed by a search
    box, with a delete action that reloads the list once the row is gone. */
module Home {
  import opened Wrappers
  import opened Types
  import Backend
  import Seqs
  import Text
  import Ordering

  /** The screen's state: the notes last fetched, the two progress flags and the
      search text. */
  datatype HomeState = HomeState(notes: seq<Note>, loading: bool, refreshing: bool, query: string)

  /** The outcome of a delete: the screen and the tables after it. */
  datatype HomeStep = HomeStep(home: HomeState, db: Backend.Db)

  /** The screen as it opens: no notes yet, loading, empty search. */
  function Open(): (h: HomeState)
    ensures h.notes == [] && h.loading && !h.refreshing && h.query == ""
  {
    HomeState([], true, false, "")
  }

  /** `fetchNotes` from the point its query has answered: an error keeps the list
      shown, otherwise the list becomes `data`, or empty when `data` is null. Both
      progress flags are cleared either way. */
  function CompleteFetch(h: HomeState, reply: Backend.Response<seq<Note>>): (r: HomeState)
    ensures !r.loading && !r.refreshing && r.query == h.query
    ensures reply.error.Some? ==> r.notes == h.notes
    ensures reply.error.None? && reply.data.Some? ==> r.notes == reply.data.value
    ensures reply.error.None? && reply.data.None? ==> r.notes == []
  {
    var notes := if reply.error.Some? then h.notes else reply.data.GetOr([]);
    h.(notes := notes, loading := false, refreshing := false)
  }

  /** `fetchNotes`: nothing at all without a signed-in user; otherwise reads the user's
      notes, newest first, and continues as `CompleteFetch`. */
  function FetchNotes(h: HomeState, user: Option<User>, db: Backend.Db, net: Backend.Transport): (r: HomeState)
    ensures user.None? ==> r == h
    ensures user.Some? ==> !r.loading && !r.refreshing && r.query == h.query
    ensures user.Some? && net.Dropped? ==> r.notes == h.notes
    ensures user.Some? && net.Delivered? ==>
      && Ordering.NewestFirst(r.notes)
      && (forall n :: n in r.notes <==> n in db.notes && n.userId == user.value.id)
      && multiset(r.notes) == multiset(Seqs.Filter(db.notes, Backend.OwnedBy(user.value.id)))
  {
    match user
    case None => h
    case Some(u) => CompleteFetch(h, Backend.SelectNotesOf(db, u.id, net))
  }

  /** The search test: the lower-cased query occurs somewhere in the lower-cased title. */
  function TitleMatches(query: string): (m: Note -> bool)
    ensures forall n :: m(n) <==> exists i :: Text.OccursAt(Text.Lower(n.title), Text.Lower(query), i)
  {
    (n: Note) => Text.Contains(Text.Lower(n.title), Text.Lower(query))
  }

  /** `filteredNotes`: the whole list for an empty query; otherwise the notes whose
      title contains the query, ignoring the case of ASCII letters, in list order. */
  function FilteredNotes(notes: seq<Note>, query: string): (r: seq<Note>)
    ensures query == "" ==> r == notes
    ensures |r| <= |notes|
    ensures forall n :: n in r ==> n in notes
    ensures query != "" ==> forall n :: n in notes ==> (n in r <==> TitleMatches(query)(n))
  {
    if query == "" then notes
    else
      Seqs.FilterMembers(notes, TitleMatches(query));
      Seqs.Filter(notes, TitleMatches(query))
  }

  /** A non-empty search keeps exactly the positions of the list whose title matches,
      in their original order: an order-preserving subsequence. */
  lemma SearchSelects(notes: seq<Note>, query: string)
    requires query != ""
    ensures Seqs.IsSubsequence(FilteredNotes(notes, query), notes)
    ensures Seqs.Embeds(FilteredNotes(notes, query), notes, Seqs.FilterIndices(notes, TitleMatches(query)))
    ensures forall i :: 0 <= i < |notes| ==>
      (TitleMatches(query)(notes[i]) <==> i in Seqs.FilterIndices(notes, TitleMatches(query)))
  {
    Seqs.FilterSelects(notes, TitleMatches(query));
  }

  /** The `if (searchQuery)` guard changes no result: the search test with an empty
      query keeps every note, just as the unfiltered list does. */
  lemma EmptyQueryKeepsAll(notes: seq<Note>)
    ensures FilteredNotes(notes, "") == Seqs.Filter(notes, TitleMatches("")) == notes
  {
    forall i | 0 <= i < |notes|
      ensures TitleMatches("")(notes[i])
    {
      Text.ContainsEmpty(Text.Lower(notes[i].title));
    }
    Seqs.FilterAll(notes, TitleMatches(""));
  }

  /** The search ignores the case of the query: lower-casing it first changes nothing. */
  lemma SearchIgnoresQueryCase(notes: seq<Note>, query: string)
    ensures FilteredNotes(notes, Text.Lower(query)) == FilteredNotes(notes, query)
  {
    if query != "" {
      Text.LowerIdempotent(query);
      Seqs.FilterCongruent(notes, TitleMatches(Text.Lower(query)), TitleMatches(query));
    }
  }

  /** `deleteNote` once confirmed: deletes the row with that id; when the delete
      reports an error the list is left as it is, and otherwise the notes are fetched
      again. */
  function DeleteNote(h: HomeState, user: Option<User>, db: Backend.Db, id: int, del: Backend.Transport, refetch: Backend.Transport): (r: HomeStep)
    ensures del.Dropped? ==> r == HomeStep(h, db)
    ensures del.Delivered? ==>
      && r.db.users == db.users
      && (forall n :: n in r.db.notes <==> n in db.notes && n.id != id)
      && Seqs.IsSubsequence(r.db.notes, db.notes)
      && r.home == FetchNotes(h, user, r.db, refetch)
  {
    var w := Backend.DeleteNote(db, id, del);
    if w.error.Some? then HomeStep(h, db)
    else HomeStep(FetchNotes(h, user, w.db, refetch), w.db)
  }

  /** After a delete and reload that both reach the database, the list no longer
      shows the deleted note and still shows every other note of the user. */
  lemma DeletedNoteLeavesList(h: HomeState, u: User, db: Backend.Db, id: int)
    ensures var r := DeleteNote(h, Some(u), db, id, Backend.Delivered, Backend.Delivered);
      && (forall n :: n in r.home.notes ==> n.id != id)
      && (forall n :: n in db.notes && n.userId == u.id && n.id != id ==> n in r.home.notes)
  {
  }
}

=== FILE: json.dfy ===
/** `JSON.stringify` and `JSON.parse` for the one value the app persists: the signed-in
    `User`, written as `{"id":<integer>,"email":"<string>"}`. */
module Json {
  import opened Wrappers
  import opened Types

  // ---------------------------------------------------------------- numbers

  predicate IsDigit(c: char)
  {
    '0' <= c <= '9'
  }

  function DigitChar(d: nat): (c: char)
    requires d < 10
    ensures IsDigit(c)
  {
    (d + '0' as int) as char
  }

  function DigitValue(c: char): (d: nat)
    requires IsDigit(c)
    ensures d < 10 && DigitChar(d) == c
  {
    c as int - '0' as int
  }

  /** The decimal text of `n`, without leading zeros. */
  function NatText(n: nat): (t: string)
    ensures |t| > 0
    ensures forall i :: 0 <= i < |t| ==> IsDigit(t[i])
    ensures t[0] == '0' ==> n == 0 && |t| == 1
  {
    if n < 10 then [DigitChar(n)] else NatText(n / 10) + [DigitChar(n % 10)]
  }

  /** The value of a string of decimal digits. */
  function DigitsValue(t: string): nat
    requires forall i :: 0 <= i < |t| ==> IsDigit(t[i])
  {
    if |t| == 0 then 0 else DigitsValue(t[..|t| - 1]) * 10 + DigitValue(t[|t| - 1])
  }

  lemma {:induction false} NatTextValue(n: nat)
    ensures DigitsValue(NatText(n)) == n
  {
    if n >= 10 {
      var t := NatText(n);
      assert t[..|t| - 1] == NatText(n / 10);
      NatTextValue(n / 10);
    }
  }

  /** How `JSON.stringify` writes an integer. */
  function IntText(i: int): (t: string)
    ensures |t| > 0 && forall k :: 0 <= k < |t| ==> IsDigit(t[k]) || t[k] == '-'
  {
    if i < 0 then "-" + NatText(-i) else NatText(i)
  }

  /** A JSON number with no fraction and no exponent: digits without a superfluous
      leading zero. */
  function ParseNat(t: string): Option<nat>
  {
    if |t| == 0 || (t[0] == '0' && |t| > 1) || !(forall i :: 0 <= i < |t| ==> IsDigit(t[i])) then None
    else Some(DigitsValue(t))
  }

  /** A JSON integer, optionally negative. */
  function ParseInt(t: string): Option<int>
  {
    if |t| > 0 && t[0] == '-' then
      match ParseNat(t[1..])
      case Some(n) => Some(-(n as int))
      case None => None
    else
      match ParseNat(t)
      case Some(n) => Some(n)
      case None => None
  }

  /** Reading back what `IntText` writes gives the same integer. */
  lemma IntRoundTrip(i: int)
    ensures ParseInt(IntText(i)) == Some(i)
  {
    if i < 0 {
      assert IntText(i)[1..] == NatText(-i);
      NatTextValue(-i);
    } else {
      NatTextValue(i);
    }
  }

  // ---------------------------------------------------------------- strings

  function HexDigit(d: nat): char
    requires d < 16
  {
    "0123456789abcdef"[d]
  }

  function HexValue(c: char): (r: Option<nat>)
    ensures r.Some? ==> r.value < 16
  {
    if '0' <= c <= '9' then Some(c as int - '0' as int)
    else if 'a' <= c <= 'f' then Some(c as int - 'a' as int + 10)
    else if 'A' <= c <= 'F' then Some(c as int - 'A' as int + 10)
    else None
  }

  lemma HexDigitValue(d: nat)
    requires d < 16
    ensures HexValue(HexDigit(d)) == Some(d)
  {
  }

  /** The code unit written by four hexadecimal digits. */
  function Hex4(h: string): (r: Option<nat>)
    requires |h| == 4
    ensures r.Some? ==> r.value < 0x1_0000
  {
    match (HexValue(h[0]), HexValue(h[1]), HexValue(h[2]), HexValue(h[3]))
    case (Some(a), Some(b), Some(c), Some(d)) => Some(((a * 16 + b) * 16 + c) * 16 + d)
    case _ => None
  }

  /** How `JSON.stringify` writes one character inside a string literal: the quote and
      the backslash are escaped, control characters use their short escape or `\u00XX`
      with lower-case hex digits, and everything else is written as it is. */
  function EscapeChar(c: char): (t: string)
    ensures |t| > 0
  {
    if c == '"' then ['\\', '"']
    else if c == '\\' then ['\\', '\\']
    else if c == '\U{0008}' then ['\\', 'b']
    else if c == '\t' then ['\\', 't']
    else if c == '\n' then ['\\', 'n']
    else if c == '\U{000C}' then ['\\', 'f']
    else if c == '\r' then ['\\', 'r']
    else if c < ' ' then ['\\', 'u', '0', '0', HexDigit(c as int / 16), HexDigit(c as int % 16)]
    else [c]
  }

  /** The body of the string literal `JSON.stringify` writes for `s`. */
  function Escape(s: string): string
  {
    if |s| == 0 then "" else EscapeChar(s[0]) + Escape(s[1..])
  }

  /** Decodes the escape sequence that follows a backslash: the character it stands for
      and how many characters after the backslash it occupies. */
  function Unescape(t: string): (r: Option<(char, nat)>)
    ensures r.Some? ==> 1 <= r.value.1 <= |t|
  {
    if |t| == 0 then None
    else if t[0] == '"' then Some(('"', 1))
    else if t[0] == '\\' then Some(('\\', 1))
    else if t[0] == '/' then Some(('/', 1))
    else if t[0] == 'b' then Some(('\U{0008}', 1))
    else if t[0] == 'f' then Some(('\U{000C}', 1))
    else if t[0] == 'n' then Some(('\n', 1))
    else if t[0] == 'r' then Some(('\r', 1))
    else if t[0] == 't' then Some(('\t', 1))
    else if t[0] == 'u' && |t| >= 5 then
      match Hex4(t[1..5])
      case Some(v) => if 0xD800 <= v < 0xE000 then None else Some((v as char, 5))
      case None => None
    else None
  }

  /** Puts `c` in front of the decoded text of a successful read. */
  function Prepend(c: char, r: Option<(string, string)>): (p: Option<(string, string)>)
    ensures p.Some? <==> r.Some?
    ensures p.Some? ==> p.value.1 == r.value.1
  {
    match r
    case Some((d, rest)) => Some(([c] + d, rest))
    case None => None
  }

  /** Reads the body of a string literal up to its closing quote: the decoded text and
      what follows the quote. Raw control characters and unknown escapes are errors. */
  function ReadString(s: string): (r: Option<(string, string)>)
    ensures r.Some? ==> |r.value.1| < |s| && r.value.1 == s[|s| - |r.value.1|..]
    decreases |s|
  {
    if |s| == 0 then None
    else if s[0] == '"' then Some(("", s[1..]))
    else if s[0] < ' ' then None
    else if s[0] == '\\' then
      match Unescape(s[1..])
      case Some((c, n)) => Prepend(c, ReadString(s[1 + n..]))
      case None => None
    else Prepend(s[0], ReadString(s[1..]))
  }

  /** A control character without a short escape is written as `\u00XX` and read back. */
  lemma ReadHexEscape(c: char, t: string)
    requires c < ' ' && c != '\U{0008}' && c != '\t' && c != '\n' && c != '\U{000C}' && c != '\r'
    ensures ReadString(EscapeChar(c) + t) == Prepend(c, ReadString(t))
  {
    var hi, lo := c as int / 16, c as int % 16;
    var e := ['\\', 'u', '0', '0', HexDigit(hi), HexDigit(lo)];
    assert EscapeChar(c) == e;
    var s := e + t;
    HexDigitValue(0);
    HexDigitValue(hi);
    HexDigitValue(lo);
    assert s[2..6] == ['0', '0', HexDigit(hi), HexDigit(lo)];
    assert Hex4(s[2..6]) == Some(c as int);
    assert s[1..][1..5] == s[2..6];
    assert Unescape(s[1..]) == Some((c, 5));
    assert s[1 + 5..] == t;
  }

  /** A character with a two-character escape is read back from it. */
  lemma ReadShortEscape(c: char, t: string)
    requires |EscapeChar(c)| == 2
    ensures ReadString(EscapeChar(c) + t) == Prepend(c, ReadString(t))
  {
    var s := EscapeChar(c) + t;
    assert s[0] == '\\';
    assert Unescape(s[1..]) == Some((c, 1));
    assert s[1 + 1..] == t;
  }

  lemma ReadEscapedChar(c: char, t: string)
    ensures ReadString(EscapeChar(c) + t) == Prepend(c, ReadString(t))
  {
    if c < ' ' && c != '\U{0008}' && c != '\t' && c != '\n' && c != '\U{000C}' && c != '\r' {
      ReadHexEscape(c, t);
    } else if |EscapeChar(c)| == 2 {
      ReadShortEscape(c, t);
    } else {
      assert EscapeChar(c) == [c];
      assert (EscapeChar(c) + t)[1..] == t;
    }
  }

  /** Reading back an escaped string followed by its closing quote yields the string
      and leaves the rest of the input. */
  lemma {:induction false} ReadEscaped(x: string, rest: string)
    ensures ReadString(Escape(x) + "\"" + rest) == Some((x, rest))
  {
    if |x| == 0 {
      assert Escape(x) + "\"" + rest == "\"" + rest;
    } else {
      assert Escape(x) + "\"" + rest == EscapeChar(x[0]) + (Escape(x[1..]) + "\"" + rest);
      ReadEscapedChar(x[0], Escape(x[1..]) + "\"" + rest);
      ReadEscaped(x[1..], rest);
      assert [x[0]] + x[1..] == x;
    }
  }

  // ---------------------------------------------------------------- the user record

  const IdKey: string := "{\"id\":"
  const EmailKey: string := ",\"email\":\""

  /** `JSON.stringify({ id, email })`: an object text, never the empty string the
      session loader skips. */
  function Serialize(u: User): (t: string)
    ensures t != "" && IdKey <= t && t[|t| - 1] == '}'
  {
    IdKey + IntText(u.id) + EmailKey + Escape(u.email) + "\"}"
  }

  /** The position of the first `c` in `s`, or `|s|` when there is none. */
  function IndexOf(s: string, c: char): (k: nat)
    ensures k <= |s|
    ensures forall i :: 0 <= i < k ==> s[i] != c
    ensures k < |s| ==> s[k] == c
  {
    if |s| == 0 || s[0] == c then 0 else 1 + IndexOf(s[1..], c)
  }

  /** `JSON.parse` of a stored user record. Only the compact object form `Serialize`
      writes is accepted; anything else, the empty string and `null` included, is a
      parse error. */
  function Parse(text: string): (r: Option<User>)
    ensures r.Some? ==> IdKey <= text && text[|text| - 1] == '}'
  {
    if IdKey <= text then ParseAfterId(text[|IdKey|..]) else None
  }

  /** The id up to the first comma, then the email field. */
  function ParseAfterId(s: string): (r: Option<User>)
    ensures r.Some? ==> |s| > 0 && s[|s| - 1] == '}'
  {
    var n := IndexOf(s, ',');
    match ParseInt(s[..n])
    case Some(id) => ParseEmail(id, s[n..])
    case None => None
  }

  /** The email field and the closing brace, which must end the text. */
  function ParseEmail(id: int, s: string): (r: Option<User>)
    ensures r.Some? ==> r.value.id == id && |s| > 0 && s[|s| - 1] == '}'
  {
    if EmailKey <= s then
      match ReadString(s[|EmailKey|..])
      case Some((email, rest)) => if rest == "}" then Some(User(id, email)) else None
      case None => None
    else None
  }

  lemma IndexOfFirst(a: string, b: string, c: char)
    requires forall i :: 0 <= i < |a| ==> a[i] != c
    requires |b| > 0 && b[0] == c
    ensures IndexOf(a + b, c) == |a|
  {
    var k := IndexOf(a + b, c);
    assert (a + b)[|a|] == c;
    assert forall i :: 0 <= i < |a| ==> (a + b)[i] == a[i];
  }

  /** What follows the id in a serialized record reads back as the email. */
  lemma ReadEmailField(id: int, email: string)
    ensures ParseEmail(id, EmailKey + Escape(email) + "\"}") == Some(User(id, email))
  {
    var tail := EmailKey + Escape(email) + "\"}";
    assert tail[|EmailKey|..] == Escape(email) + "\"" + "}";
    ReadEscaped(email, "}");
  }

  lemma ReadIdField(id: int, tail: string)
    requires |tail| > 0 && tail[0] == ','
    ensures ParseAfterId(IntText(id) + tail) == ParseEmail(id, tail)
  {
    var num := IntText(id);
    var s := num + tail;
    IndexOfFirst(num, tail, ',');
    assert s[..|num|] == num;
    assert s[|num|..] == tail;
    IntRoundTrip(id);
  }

  /** Parsing a serialized user gives back the same user: the round trip the stored
      session depends on. */
  lemma ParseSerialize(u: User)
    ensures Parse(Serialize(u)) == Some(u)
  {
    var tail := EmailKey + Escape(u.email) + "\"}";
    var afterId := IntText(u.id) + tail;
    assert Serialize(u) == IdKey + afterId;
    assert Serialize(u)[|IdKey|..] == afterId;
    ReadIdField(u.id, tail);
    ReadEmailField(u.id, u.email);
  }

  /** Two users with the same serialization are the same user. */
  lemma SerializeInjective(u: User, v: User)
    requires Serialize(u) == Serialize(v)
    ensures u == v
  {
    ParseSerialize(u);
    ParseSerialize(v);
  }
}

=== FILE: ordering.dfy ===
/** The order the note list is read in: `order('updated_at', { ascending: false })`,
    most recently updated first. */
module Ordering {
  import opened Types

  /** Each note was updated no earlier than every note after it. */
  predicate NewestFirst(s: seq<Note>)
  {
    forall i, j :: 0 <= i < j < |s| ==> s[i].updatedAt >= s[j].updatedAt
  }

  /** Places `n` in front of the first note that is not newer than it. */
  function InsertByRecency(n: Note, s: seq<Note>): (r: seq<Note>)
    requires NewestFirst(s)
    ensures NewestFirst(r)
    ensures multiset(r) == multiset(s) + multiset{n}
    ensures |r| == |s| + 1
  {
    if |s| == 0 || n.updatedAt >= s[0].updatedAt then
      [n] + s
    else
      var rest := InsertByRecency(n, s[1..]);
      assert s == [s[0]] + s[1..];
      BoundedByHead(n, s, rest);
      [s[0]] + rest
  }

  /** Every note of `rest`, a reordering of `s` without its head plus a note older
      than that head, is no newer than the head of `s`. */
  lemma BoundedByHead(n: Note, s: seq<Note>, rest: seq<Note>)
    requires NewestFirst(s) && |s| > 0 && n.updatedAt < s[0].updatedAt
    requires NewestFirst(rest) && multiset(rest) == multiset(s[1..]) + multiset{n}
    ensures NewestFirst([s[0]] + rest)
  {
    forall k | 0 <= k < |rest|
      ensures rest[k].updatedAt <= s[0].updatedAt
    {
      assert rest[k] in multiset(rest);
      if rest[k] != n {
        assert rest[k] in multiset(s[1..]);
        var j :| 0 <= j < |s[1..]| && s[1..][j] == rest[k];
        assert s[j + 1] == rest[k];
      }
    }
    var r := [s[0]] + rest;
    forall i, j | 0 <= i < j < |r|
      ensures r[i].updatedAt >= r[j].updatedAt
    {
      assert r[j] == rest[j - 1];
      if i > 0 {
        assert r[i] == rest[i - 1];
      }
    }
  }

  /** The notes of `s`, newest first. Notes updated at the same instant keep no
      particular order in the database; this model keeps them in table order. */
  function SortByRecency(s: seq<Note>): (r: seq<Note>)
    ensures NewestFirst(r)
    ensures multiset(r) == multiset(s)
    ensures |r| == |s|
  {
    if |s| == 0 then []
    else
      assert s == [s[0]] + s[1..];
      InsertByRecency(s[0], SortByRecency(s[1..]))
  }

  /** A note updated strictly later than every other note of a newest-first list
      heads that list. */
  lemma NewestHeadsList(s: seq<Note>, n: Note)
    requires NewestFirst(s)
    requires n in s
    requires forall m :: m in s && m != n ==> m.updatedAt < n.updatedAt
    ensures s[0] == n
  {
    assert s[0] in s;
    assert s[0].updatedAt >= n.updatedAt by {
      var k :| 0 <= k < |s| && s[k] == n;
    }
  }
}

=== FILE: scenarios.dfy ===
/** Sequences of operations across the session, the editors and the home screen,
    with every call reaching the database. */
module Scenarios {
  import opened Wrappers
  import opened Types
  import Backend
  import Ordering
  import Text
  import Home
  import Editor

  /** A note saved at a time later than every existing update shows at the top of the
      owner's reloaded list. */
  lemma NewNoteListedFirst(f: Editor.Form, u: User, db: Backend.Db, now: nat, h: Home.HomeState)
    requires !Text.IsBlank(f.title)
    requires forall n :: n in db.notes ==> n.updatedAt < now
    ensures var saved := Editor.HandleSave(f, Some(u), db, Backend.Delivered, now);
      var listed := Home.FetchNotes(h, Some(u), saved.db, Backend.Delivered).notes;
      && |listed| > 0
      && listed[0] == saved.db.notes[|db.notes|]
      && listed[0].title == f.title
  {
    var saved := Editor.HandleSave(f, Some(u), db, Backend.Delivered, now);
    var listed := Home.FetchNotes(h, Some(u), saved.db, Backend.Delivered).notes;
    var added := saved.db.notes[|db.notes|];
    assert added in saved.db.notes;
    assert added in listed;
    forall m | m in listed && m != added
      ensures m.updatedAt < added.updatedAt
    {
      assert m in saved.db.notes;
      assert saved.db.notes == db.notes + [added] by {
        assert saved.db.notes[..|db.notes|] == db.notes;
      }
      assert m in db.notes;
    }
    Ordering.NewestHeadsList(listed, added);
  }

  /** After an edit of one of the user's notes, the reloaded list shows the note under
      its id with the new title, updated later than it was created. */
  lemma EditedNoteListed(f: Editor.Form, note: Note, u: User, db: Backend.Db, now: nat, h: Home.HomeState, i: nat)
    requires !Text.IsBlank(f.title)
    requires i < |db.notes| && db.notes[i] == note && note.userId == u.id
    requires now > note.createdAt
    ensures var edited := Editor.HandleUpdate(f, note, db, Backend.Delivered, now);
      var listed := Home.FetchNotes(h, Some(u), edited.db, Backend.Delivered).notes;
      exists m :: m in listed && m.id == note.id && m.title == f.title && m.updatedAt > m.createdAt
  {
    var edited := Editor.HandleUpdate(f, note, db, Backend.Delivered, now);
    Editor.UpdateRewritesAnyOwner(f, note, db, now, i);
    var m := edited.db.notes[i];
    assert m in edited.db.notes;
    var listed := Home.FetchNotes(h, Some(u), edited.db, Backend.Delivered).notes;
    assert m in listed;
  }
}

=== FILE: seqs.dfy ===
/** Order-preserving selection from a sequence: the `Array.prototype.filter` of the source,
    and the equality-filtered reads of the database. */
module Seqs {

  /** `idx` lists strictly increasing positions of `s`, and `r` is what `s` holds there. */
  ghost predicate Embeds<T>(r: seq<T>, s: seq<T>, idx: seq<nat>)
  {
    && |idx| == |r|
    && (forall k :: 0 <= k < |idx| ==> idx[k] < |s| && r[k] == s[idx[k]])
    && (forall k, l :: 0 <= k < l < |idx| ==> idx[k] < idx[l])
  }

  /** `r` is an order-preserving subsequence of `s`. */
  ghost predicate IsSubsequence<T>(r: seq<T>, s: seq<T>)
  {
    exists idx :: Embeds(r, s, idx)
  }

  /** The elements of `s` that satisfy `p`, in their original order. */
  function Filter<T>(s: seq<T>, p: T -> bool): (r: seq<T>)
    ensures |r| <= |s|
    ensures forall k :: 0 <= k < |r| ==> p(r[k])
  {
    if |s| == 0 then []
    else
      var front := Filter(s[..|s| - 1], p);
      if p(s[|s| - 1]) then front + [s[|s| - 1]] else front
  }

  /** The positions of `s` whose element satisfies `p`, ascending. */
  function FilterIndices<T>(s: seq<T>, p: T -> bool): (idx: seq<nat>)
    ensures forall k :: 0 <= k < |idx| ==> idx[k] < |s|
  {
    if |s| == 0 then []
    else
      var front := FilterIndices(s[..|s| - 1], p);
      if p(s[|s| - 1]) then front + [|s| - 1] else front
  }

  /** `Filter` keeps exactly the positions whose element satisfies `p`, in order:
      the result is the subsequence of `s` at `FilterIndices(s, p)`, and a position
      is among those indices precisely when its element satisfies `p`. */
  lemma FilterSelects<T>(s: seq<T>, p: T -> bool)
    ensures Embeds(Filter(s, p), s, FilterIndices(s, p))
    ensures forall i :: 0 <= i < |s| ==> (p(s[i]) <==> i in FilterIndices(s, p))
  {
    FilterEmbeds(s, p);
    FilterIndicesExact(s, p);
  }

  /** `Filter(s, p)` is what `s` holds at the positions `FilterIndices(s, p)`. */
  lemma {:induction false} FilterEmbeds<T>(s: seq<T>, p: T -> bool)
    ensures Embeds(Filter(s, p), s, FilterIndices(s, p))
  {
    if |s| > 0 {
      var init, x := s[..|s| - 1], s[|s| - 1];
      FilterEmbeds(init, p);
      if p(x) {
        EmbedsKeepLast(Filter(init, p), init, FilterIndices(init, p), x);
      } else {
        EmbedsDropLast(Filter(init, p), init, FilterIndices(init, p), x);
      }
      assert init + [x] == s;
    }
  }

  /** A position is among `FilterIndices(s, p)` exactly when its element satisfies `p`. */
  lemma {:induction false} FilterIndicesExact<T>(s: seq<T>, p: T -> bool)
    ensures forall i :: 0 <= i < |s| ==> (p(s[i]) <==> i in FilterIndices(s, p))
  {
    if |s| > 0 {
      var init := s[..|s| - 1];
      FilterIndicesExact(init, p);
      var fi := FilterIndices(init, p);
      var idx := FilterIndices(s, p);
      assert |init| !in fi;
      forall i | 0 <= i < |s|
        ensures p(s[i]) <==> i in idx
      {
        if i < |init| {
          assert s[i] == init[i];
        }
      }
    }
  }

  /** An embedding extends by keeping a new last element. */
  lemma EmbedsKeepLast<T>(r: seq<T>, s: seq<T>, idx: seq<nat>, x: T)
    requires Embeds(r, s, idx)
    ensures Embeds(r + [x], s + [x], idx + [|s|])
  {
    var r', s', idx' := r + [x], s + [x], idx + [|s|];
    forall k | 0 <= k < |idx'|
      ensures idx'[k] < |s'| && r'[k] == s'[idx'[k]]
    {
      if k < |idx| {
        assert idx'[k] == idx[k] && r'[k] == r[k] && s'[idx[k]] == s[idx[k]];
      }
    }
  }

  /** An embedding extends by skipping a new last element. */
  lemma EmbedsDropLast<T>(r: seq<T>, s: seq<T>, idx: seq<nat>, x: T)
    requires Embeds(r, s, idx)
    ensures Embeds(r, s + [x], idx)
  {
    forall k | 0 <= k < |idx|
      ensures r[k] == (s + [x])[idx[k]]
    {
    }
  }

  /** Hence `Filter` returns an order-preserving subsequence of its input. */
  lemma FilterIsSubsequence<T>(s: seq<T>, p: T -> bool)
    ensures IsSubsequence(Filter(s, p), s)
  {
    FilterSelects(s, p);
  }

  /** An element is in the result of `Filter` exactly when it is in the input and
      satisfies `p`. */
  lemma FilterMembers<T>(s: seq<T>, p: T -> bool)
    ensures forall x :: x in Filter(s, p) <==> x in s && p(x)
  {
    FilterSelects(s, p);
    var r, idx := Filter(s, p), FilterIndices(s, p);
    forall x | x in s && p(x)
      ensures x in r
    {
      var i :| 0 <= i < |s| && s[i] == x;
      assert i in idx;
      var k :| 0 <= k < |idx| && idx[k] == i;
      assert r[k] == x;
    }
  }

  /** When exactly one position of `s` satisfies `p`, `Filter` returns just that element. */
  lemma FilterSingle<T>(s: seq<T>, p: T -> bool, k: nat)
    requires k < |s| && p(s[k])
    requires forall i :: 0 <= i < |s| && p(s[i]) ==> i == k
    ensures Filter(s, p) == [s[k]]
  {
    FilterSelects(s, p);
    var idx := FilterIndices(s, p);
    assert k in idx;
    assert forall j :: 0 <= j < |idx| ==> idx[j] == k;
    assert forall j :: 0 < j < |idx| ==> idx[0] < idx[j];
    assert |idx| == 1;
  }

  /** When two positions of `s` satisfy `p`, `Filter` returns at least two elements. */
  lemma FilterTwo<T>(s: seq<T>, p: T -> bool, i: nat, j: nat)
    requires i < j < |s| && p(s[i]) && p(s[j])
    ensures |Filter(s, p)| >= 2
  {
    FilterSelects(s, p);
    var idx := FilterIndices(s, p);
    assert i in idx && j in idx;
    var a :| 0 <= a < |idx| && idx[a] == i;
    var b :| 0 <= b < |idx| && idx[b] == j;
    assert a != b;
  }

  /** When every element of `s` satisfies `p`, `Filter` returns `s` unchanged. */
  lemma {:induction false} FilterAll<T>(s: seq<T>, p: T -> bool)
    requires forall i :: 0 <= i < |s| ==> p(s[i])
    ensures Filter(s, p) == s
  {
    if |s| > 0 {
      FilterAll(s[..|s| - 1], p);
      assert s[..|s| - 1] + [s[|s| - 1]] == s;
    }
  }

  /** When no position of `s` satisfies `p`, `Filter` returns nothing. */
  lemma FilterNone<T>(s: seq<T>, p: T -> bool)
    requires forall i :: 0 <= i < |s| ==> !p(s[i])
    ensures Filter(s, p) == []
  {
    FilterMembers(s, p);
  }

  /** Filtering by two predicates that agree on every element gives the same result. */
  lemma {:induction false} FilterCongruent<T>(s: seq<T>, p: T -> bool, q: T -> bool)
    requires forall i :: 0 <= i < |s| ==> p(s[i]) == q(s[i])
    ensures Filter(s, p) == Filter(s, q)
  {
    if |s| > 0 {
      FilterCongruent(s[..|s| - 1], p, q);
    }
  }
}

=== FILE: text.dfy ===
/** The string operations the screens rely on: JavaScript's `trim` (for the
    non-blank title guard), `toLowerCase` (restricted to ASCII letters) and
    `includes` (substring search). */
module Text {

  /** The characters `String.prototype.trim` removes: ECMAScript's WhiteSpace
      (tab, vertical tab, form feed, space, no-break space, byte order mark and
      the Unicode space separators) and LineTerminator (LF, CR, LS, PS). */
  predicate IsWhitespace(c: char)
  {
    || c == '\t' || c == '\n' || c == '\U{000B}' || c == '\U{000C}' || c == '\r'
    || c == ' ' || c == '\U{00A0}' || c == '\U{1680}'
    || ('\U{2000}' <= c <= '\U{200A}')
    || c == '\U{2028}' || c == '\U{2029}' || c == '\U{202F}' || c == '\U{205F}'
    || c == '\U{3000}' || c == '\U{FEFF}'
  }

  /** `s` without its leading whitespace. */
  function TrimStart(s: string): (r: string)
    ensures |r| <= |s| && r == s[|s| - |r|..]
    ensures forall i :: 0 <= i < |s| - |r| ==> IsWhitespace(s[i])
    ensures |r| > 0 ==> !IsWhitespace(r[0])
  {
    if |s| > 0 && IsWhitespace(s[0]) then TrimStart(s[1..]) else s
  }

  /** `s` without its trailing whitespace. */
  function TrimEnd(s: string): (r: string)
    ensures |r| <= |s| && r == s[..|r|]
    ensures forall i :: |r| <= i < |s| ==> IsWhitespace(s[i])
    ensures |r| > 0 ==> !IsWhitespace(r[|r| - 1])
  {
    if |s| > 0 && IsWhitespace(s[|s| - 1]) then TrimEnd(s[..|s| - 1]) else s
  }

  /** `s.trim()`: what remains neither starts nor ends with whitespace. */
  function Trim(s: string): (r: string)
    ensures |r| <= |s|
    ensures |r| > 0 ==> !IsWhitespace(r[0]) && !IsWhitespace(r[|r| - 1])
  {
    TrimEnd(TrimStart(s))
  }

  /** The title guard `!title.trim()`: the trimmed text is the empty string, which
      JavaScript treats as false. A title is blank exactly when every one of its
      characters is whitespace; in particular the empty title is blank. */
  predicate IsBlank(s: string): (b: bool)
    ensures b <==> forall i :: 0 <= i < |s| ==> IsWhitespace(s[i])
  {
    Trim(s) == ""
  }

  /** Trimming keeps a contiguous piece of `s`, and everything it drops on either side
      is whitespace. */
  lemma TrimKeepsCore(s: string)
    ensures exists i, j ::
      && 0 <= i <= j <= |s|
      && Trim(s) == s[i..j]
      && (forall k :: 0 <= k < i ==> IsWhitespace(s[k]))
      && (forall k :: j <= k < |s| ==> IsWhitespace(s[k]))
  {
    var t := TrimStart(s);
    var i := |s| - |t|;
    var r := TrimEnd(t);
    var j := i + |r|;
    assert r == t[..|r|] == s[i..j];
    forall k | j <= k < |s|
      ensures IsWhitespace(s[k])
    {
      assert s[k] == t[k - i];
    }
  }

  /** ASCII lowering: `A`..`Z` become `a`..`z`, every other character is kept. */
  function LowerChar(c: char): char
  {
    if 'A' <= c <= 'Z' then (c as int - 'A' as int + 'a' as int) as char else c
  }

  /** `s.toLowerCase()` for ASCII letters. */
  function Lower(s: string): (r: string)
    ensures |r| == |s|
    ensures forall i :: 0 <= i < |s| ==> r[i] == LowerChar(s[i])
    ensures forall i :: 0 <= i < |r| ==> !('A' <= r[i] <= 'Z')
  {
    seq(|s|, i requires 0 <= i < |s| => LowerChar(s[i]))
  }

  /** Lowering twice is lowering once. */
  lemma LowerIdempotent(s: string)
    ensures Lower(Lower(s)) == Lower(s)
  {
  }

  /** `needle` occurs in `hay` starting at position `i`. */
  ghost predicate OccursAt(hay: string, needle: string, i: int)
  {
    0 <= i && i + |needle| <= |hay| && hay[i..i + |needle|] == needle
  }

  /** `hay.includes(needle)`: scans the start positions of `hay` from the left. */
  function Contains(hay: string, needle: string): (b: bool)
    ensures b <==> exists i :: OccursAt(hay, needle, i)
    decreases |hay|
  {
    if needle <= hay then
      assert OccursAt(hay, needle, 0);
      true
    else if |hay| == 0 then
      false
    else
      var b := Contains(hay[1..], needle);
      if b then
        assert exists i :: OccursAt(hay, needle, i) by {
          var i :| OccursAt(hay[1..], needle, i);
          assert hay[1..][i..i + |needle|] == hay[i + 1..i + 1 + |needle|];
          assert OccursAt(hay, needle, i + 1);
        }
        true
      else
        assert !OccursAt(hay, needle, 0);
        assert forall i :: OccursAt(hay, needle, i) ==> i > 0 && OccursAt(hay[1..], needle, i - 1) by {
          forall i | OccursAt(hay, needle, i)
            ensures i > 0 && OccursAt(hay[1..], needle, i - 1)
          {
            assert hay[1..][i - 1..i - 1 + |needle|] == hay[i..i + |needle|];
          }
        }
        false
  }

  /** Every string contains the empty string; this is why an empty search query
      would match every title. */
  lemma ContainsEmpty(hay: string)
    ensures Contains(hay, "")
  {
    assert OccursAt(hay, "", 0);
  }
}

=== FILE: types.dfy ===
/** The records the app exchanges with its database: the signed-in `User`, the
    `users` and `notes` table rows, and the shapes of the rows it writes. */
module Types {
  import opened Wrappers

  /** The identity the session holds: an id and an email, never a password. */
  datatype User = User(id: int, email: string)

  /** A row of the `users` table. The password column is optional and the creation
      time is assigned by the server. */
  datatype UserRow = UserRow(id: int, email: string, password: Option<string>, createdAt: nat)

  /** A row of the `notes` table. Timestamps are abstract instants; `content` may be null. */
  datatype Note = Note(id: int, title: string, content: Option<string>, userId: int, createdAt: nat, updatedAt: nat)

  /** What sign-up writes into `users`: the id and creation time are left to the server. */
  datatype UserInsert = UserInsert(email: string, password: Option<string>)

  /** What the create screen writes into `notes`: no id and no timestamps, which the
      server assigns. `userId` is absent when the screen has no signed-in user. */
  datatype NoteInsert = NoteInsert(title: string, content: Option<string>, userId: Option<int>)

  /** What the edit screen writes into a `notes` row. The declared update shape of the
      table leaves `updated_at` out, but the screen sets it, and this follows the screen. */
  datatype NoteUpdate = NoteUpdate(title: string, content: Option<string>, updatedAt: nat)

  /** The session identity built from a matched `users` row: the password is dropped. */
  function AsUser(row: UserRow): (u: User)
    ensures u.id == row.id && u.email == row.email
  {
    User(row.id, row.email)
  }
}

=== FILE: wrappers.dfy ===
/** The optional value the source writes as `T | null` (or `undefined`). */
module Wrappers {

  datatype Option<+T> = None | Some(value: T) {

    /** The carried value, or `default` when there is none (the source's `x || default`). */
    function GetOr(default: T): (r: T)
      ensures Some? ==> r == value
      ensures None? ==> r == default
    {
      match this
      case Some(v) => v
      case None => default
    }
  }
}
